=== FILE: README.md ===
# Transcription job registry — Dafny model

This project models the backend of an audio-to-sheet-music service. The
backend is a FastAPI application: `backend/main.py` holds the endpoints and
`backend/audio_processor.py` wraps the Basic Pitch transcription model.

The model covers the **job registry and its lifecycle**. The registry is the
in-memory dictionary `transcriptions`, mapping a transcription id to its
record. A record moves through the statuses `uploaded → processing →
completed | failed`. Five endpoints act on it:

- upload validates the extension and the size cap, then stores the record;
- transcribe runs the conversion, or returns the stored result of a completed job;
- download picks the MIDI or MusicXML artifact of a completed job;
- status returns the record;
- delete unlinks the record's files and drops it.

The model also covers the **24-hour retention sweep** `cleanup_old_files` and
the **result composition** of `AudioProcessor._transcribe_sync` and
`_convert_to_musicxml`.

Layout, one module per file:

- `wrappers.dfy` — `Option` and `Result`.
- `paths.dfy` — the pathlib behaviour the code relies on: `name`, `suffix` (via `str.rfind`), ASCII `lower()` and path joining.
- `storage.dfy` — the configuration constants, `validate_audio_file`, the upload path rule and the retention sweep. The sweep is a loop method (`CleanupOldFiles`) proved equal to a reference definition (`Swept`).
- `audio_processor.dfy` — `_transcribe_sync` and `_convert_to_musicxml`. The three foreign steps are an input, `ConversionRun`: `predict`, the MIDI write and music21's parse-and-write.
- `server.dfy` — the record, the state and the five endpoints. The state is the registry plus the filesystem, modelled as a map from path to modification time. Each endpoint returns the new state and either its reply or its HTTP error.
- `lifecycle.dfy` — properties that span several requests: a record-shape invariant for every reachable state, idempotence, disposal, and interleavings of two requests.

Behaviour modelled as the code has it:

- An oversized upload raises its 413 inside the `try` block. The `except Exception` handler turns it into a 500 whose detail is `Upload failed: 413: File too large. Maximum size: 50MB`. It also unlinks the upload path.
- Transcribe has no conflict check. A record that is `processing` or `failed` is simply converted again, so a failed job can later complete.
- A completed job whose MusicXML step failed stores the key `musicxml_file` with value `None`. Delete then unlinks the upload and the MIDI file, and `Path(None)` raises a `TypeError`. The request ends as a 500 and the record stays.
- Transcribe mutates the record object it read before awaiting the conversion. If the job is deleted meanwhile, the late update lands on a detached object and the registry does not change. The artifacts are still written to `temp/`.
- Two interleaved transcribe requests for one id can leave a record `failed` that still names a MIDI file.

In every sequentially reachable state a record has a MIDI path exactly when it is completed (`Lifecycle.StartUpIsWellFormed`); two interleaved transcriptions break this (`Lifecycle.InterleavedRunsCanFailACompletedJob`).

## Model

| member | source | states |
|---|---|---|
| Paths.RFind | backend/main.py:82 | the index returned holds the character, and no later index does; -1 means absent (the search `suffix` performs) |
| Paths.LowerMeaning | backend/main.py:82 | lower-casing keeps the length and the position of every dot, leaves no capital A to Z, changes no other character, and a second pass changes nothing |
| Paths.Name | backend/main.py:130 | the final path component contains no slash and is never `.`; a slash-free path other than `""` and `.` is its own name |
| Paths.NameSkipsDot | backend/main.py:130 | a final `.` component is skipped, and `""`, `/` and `.` have the empty name |
| Paths.NameOfJoin | backend/main.py:270 | the name of `dir/m` is `m` for every directory and every plain component `m` |
| Paths.NameIgnoresTrailingSlash | backend/main.py:130 | a trailing slash does not change the name |
| Paths.Suffix | backend/main.py:130 | a non-empty suffix is a proper tail of the name that starts with its only dot, has a character after it and holds no slash; an empty suffix means the name has no dot after its first character other than a final one |
| Storage.ValidateIffEndsWithAllowed | backend/main.py:80-82 | `Storage.ValidateAudioFile` holds exactly when the final component of the file name is longer than, and ends case-insensitively with, one of .wav .mp3 .ogg .flac .m4a |
| Storage.PlainNameValid | backend/main.py:80-82 | for a plain stem, `stem + ext` is accepted exactly when the lower-cased `ext` is an allowed extension, whatever its case |
| Storage.AcceptsUpperCase | backend/main.py:80-82 | `x.WAV` is accepted for every plain stem |
| Storage.RejectsOtherExtension | backend/main.py:80-82 | `x.txt` is rejected for every plain stem |
| Storage.RejectsHiddenName | backend/main.py:80-82 | a name whose only dot is its first character, such as `.wav`, has no suffix and is rejected |
| Storage.RejectsTrailingDot | backend/main.py:80-82 | a name ending in a dot, such as `x.wav.`, is rejected |
| Storage.UploadPath | backend/main.py:130-131 | an upload lands directly in `uploads/`, the directory the sweep scans, when the id and suffix hold no slash |
| Storage.Swept | backend/main.py:69-77 | the reference sweep keeps only files that were already there |
| Storage.CleanupOldFiles | backend/main.py:69-77 | the loop deletes exactly the files directly in uploads/ or temp/ whose age is strictly over 24 hours; every other file keeps its time |
| Storage.SweepIsIdempotent | backend/main.py:69-77 | a second sweep at the same instant removes nothing more |
| Storage.SweepBoundary | backend/main.py:76 | a file exactly 24 hours old survives; one microsecond older is deleted |
| AudioProcessor.TranscribeSync | backend/audio_processor.py:68-109 | succeeds iff predict and the MIDI write both succeed; then the MIDI path is `{output_dir}/{id}.mid`, the status is "success", the count is the number of note events (0 when predict returned none), and the MusicXML entry is `{output_dir}/{id}.musicxml` iff music21 succeeded, `None` otherwise; a failure carries "Transcription failed: " plus the cause |
| AudioProcessor.ArtifactNames | backend/audio_processor.py:128-145 | the MIDI artifact is named `{id}.mid` and the MusicXML artifact, when produced, `{id}.musicxml`, inside the output directory; these are the names a download serves |
| AudioProcessor.MusicXmlNeverDecidesOutcome | backend/audio_processor.py:93-104 | whatever the MusicXML step does, the call succeeds or fails the same way, with the same MIDI path and count |
| AudioProcessor.FailureMessageShape | backend/audio_processor.py:108-109 | every failure message starts with "Transcription failed: " |
| Server.UploadAudio | backend/main.py:119-170 | bad extension: 400 and no change; oversized: 500, registry unchanged, no file left at the upload path; otherwise exactly the id is added, as "uploaded", at `uploads/{id}{suffix}` with the client's case, and the file exists; other records untouched |
| Server.UploadStamps | backend/main.py:143-163 | a successful upload stores the client's file name, records and answers the request time as `created_at`, stamps the new file with that time, and leaves every other file as it was |
| Server.WriteArtifacts | backend/audio_processor.py:81 | after a successful conversion the MIDI file, and the MusicXML file when produced, are on disk stamped with the finishing time; nothing else is added and every other file keeps its time |
| Server.BeginTranscription | backend/main.py:201-203 | only the status of the id becomes "processing"; files and other records unchanged |
| Server.FinishTranscription | backend/main.py:205-233 | success stores status "completed", the MIDI path, the MusicXML entry and the count, and the files change only by the written artifacts; failure stores "failed" and the message, raises it and leaves the files alone; no other record changes, and a deleted id stays deleted |
| Server.Transcribe | backend/main.py:184-233 | unknown id: 404, no change; completed: the stored paths, no change; otherwise the job ends completed iff the reply is a success; no other record changes, and every file other than the two artifact paths stays with its time |
| Server.Download | backend/main.py:249-275 | succeeds iff the id exists, the job is completed, the type is midi or musicxml, and the selected path is non-empty and on disk; the path returned is the stored one |
| Server.Delete | backend/main.py:306-321 | unknown id: 404, no change; otherwise the record's files are unlinked and exactly that id is removed, unless "musicxml_file" holds None: then 500, and the record stays |
| Server.Sweep | backend/main.py:155-157 | the scheduled sweep never touches the registry, deletes exactly the expired managed files, and leaves every surviving file with its time and no new file |
| Lifecycle.UploadPreservesWellFormed | backend/main.py:148-153 | upload keeps every record well-shaped: a valid name, its upload path, no "processing" status |
| Lifecycle.CompletedRecordOk | backend/main.py:214-219 | completing a not-yet-completed record gives a record whose MIDI, MusicXML and count entries are all present |
| Lifecycle.FailedRecordOk | backend/main.py:230-232 | failing a record leaves it without artifacts and with an error |
| Lifecycle.TranscribePreservesWellFormed | backend/main.py:184-233 | a transcription keeps every record well-shaped |
| Lifecycle.DeletePreservesWellFormed | backend/main.py:306-321 | delete keeps every record well-shaped |
| Lifecycle.ApplyPreservesWellFormed | backend/main.py:105-321 | every request keeps every record well-shaped |
| Lifecycle.ReachableStatesAreWellFormed | backend/main.py:105-321 | any sequence of requests from a well-formed state ends in a well-formed state |
| Lifecycle.StartUpIsWellFormed | backend/main.py:49 | from the empty registry at start-up, any sequence of requests leaves every job with a MIDI path exactly when it is completed |
| Lifecycle.StatusShowsTranscription | backend/main.py:289-292 | after a transcription the status endpoint returns the record, completed exactly when the call succeeded, and failed with the conversion's message otherwise |
| Lifecycle.CompletedIsFinal | backend/main.py:191-199 | with fresh ids, no request changes a completed record; only a successful delete removes it |
| Lifecycle.StatusMovesForward | backend/main.py:201-232 | for a record not in "processing" and fresh ids, statuses move uploaded to completed or failed, and failed to completed, never back to uploaded |
| Lifecycle.UnknownIdIsNotFound | backend/main.py:184-307 | transcribe, status, download and delete of an unknown id answer 404 and change nothing |
| Lifecycle.SecondTranscribeRepeatsNoWork | backend/main.py:191-199 | after a successful transcription, another one changes nothing and returns the same paths, whatever the converter would do |
| Lifecycle.TranscribeSuccessRecords | backend/main.py:213-219 | a good conversion stores `temp/{id}.mid`, the note count and the MusicXML entry (None when music21 failed) and keeps the upload fields |
| Lifecycle.TranscribeFailureRecords | backend/main.py:230-233 | a failed predict stores "failed" and the prefixed message, answers 500 and writes no file |
| Lifecycle.FailedJobIsRerun | backend/main.py:201-219 | a failed job is converted again and completes, keeping its old error entry |
| Lifecycle.DeletedJobIsGone | backend/main.py:311-319 | after a successful delete, status, download and transcribe answer 404, none of the record's files remain, other records are untouched |
| Lifecycle.DeleteWithoutMusicXmlFails | backend/main.py:312-316 | a completed job with a None MusicXML entry cannot be deleted: 500, the record stays, its upload and MIDI files are gone |
| Lifecycle.InflightDeleteIsNotUndone | backend/main.py:203-219 | a delete during the conversion is not undone by the late update; a good conversion still leaves its MIDI file |
| Lifecycle.InterleavedRunsCanFailACompletedJob | backend/main.py:201-232 | two interleaved transcriptions can leave a failed record that names a MIDI file |
| Lifecycle.MissingMidiIsNotFound | backend/main.py:266-267 | a completed job whose MIDI file is gone answers "MIDI file not found" |
| Lifecycle.SweepOrphansCompletedJob | backend/main.py:69-77 | the sweep deletes an expired MIDI file of a live job; the record stays but its MIDI download answers 404 |
| Lifecycle.FreshUploadSurvivesSweep | backend/main.py:69-77 | an upload made at time t, and its record, survive every sweep up to t plus 24 hours |
| Lifecycle.FreshMidiSurvivesSweep | backend/main.py:69-77 | the MIDI file of a conversion finished at time t survives every sweep up to t plus 24 hours |
| Lifecycle.UploadThenTranscribe | backend/main.py:119-275 | a valid upload followed by a good conversion gives a completed job whose count is the number of note events and whose MIDI file downloads |

## Left out

- FastAPI wiring, CORS and the health endpoints: no logic.
- The `TranscriptionResponse` of upload takes `created_at` from a second `datetime.now()` call; both calls are the single input `now`.
- File contents: the filesystem maps paths to modification times, upload takes only the content length, and download returns the path rather than streaming the file.
- `aiofiles` writes and directory creation: a write simply adds its path.
- Concurrency: `ThreadPoolExecutor(max_workers=2)` and the event loop are not modelled. Transcribe is split into the step before the `await` and the step after it. Only interleavings of those two steps with other requests are expressed.
- Basic Pitch `predict`, `midi_data.write` and music21 are foreign code, so their outcomes are the input `ConversionRun`. Nothing ties that input to whether the upload file still exists.
- A MIDI or MusicXML write that fails part-way may leave a partial file. The model adds a file only when the write finished.
- `uuid4` ids and `datetime.now()` are inputs. Times are integers in microseconds. Fresh ids are a hypothesis where a property needs them. `created_at` is a time, not an ISO string.
- `get_audio_info`: librosa and floating-point duration.
- The 400 detail for a bad upload extension joins a Python set in an unspecified order, so the model keeps only the error kind.
- `Paths.Name` and `Paths.Join`: no symlink resolution. `Join` assumes a directory without a trailing slash. Ids are assumed free of slashes wherever a property depends on directory membership.
- `Paths.Lower`: lower-cases ASCII letters only. This is exact for the extension test: the only non-ASCII character that `str.lower` maps into ASCII is the Kelvin sign, which becomes `k`, and no allowed extension contains `k`.
- Paths are POSIX paths (`PurePosixPath`): a backslash is an ordinary character, whereas on Windows `a\.wav` would have the name `.wav`.
- Times: `datetime.now()` and `datetime.fromtimestamp` give naive local wall-clock readings, so a daylight-saving change shifts a file's age by an hour. The model takes times as plain numbers on one clock.
- `Paths.Suffix`: follows `PurePath.suffix` as in CPython up to 3.13, where a name ending in a dot has no suffix.
- `Storage.CleanupOldFiles`: an unlink or stat error ends the real sweep early, and so does a file vanishing mid-scan. In the model, deletion from the map cannot fail.
- `Server.FinishTranscription`: `result.get("notes_detected", 0)` never falls back to 0, because the processor always sets the count. The model stores the count directly.
- `Server.UploadAudio`: the 500 detail `Upload failed: 413: File too large. Maximum size: 50MB` assumes that `str()` of Starlette's `HTTPException` is `"{status_code}: {detail}"`, as in current Starlette releases.
- `Server.Delete`: the 500 raised by `Path(None)` keeps no message, since the text of that `TypeError` differs between Python versions.
- `Server.UploadAudio`: a failure to read the request body or to write the file also lands in the `except` handler; the model has no such failure.
- `Server.Transcribe`: only a failure of the conversion is modelled as an exception inside the `try`; an executor shut down under it is not.

=== FILE: audio_processor.dfy ===
/**
 * Result composition of `AudioProcessor._transcribe_sync` and
 * `_convert_to_musicxml` in `backend/audio_processor.py`. The Basic Pitch
 * model, the MIDI writer and music21 are foreign code: what each of them did
 * on a given run is an input, `ConversionRun`.
 */
module AudioProcessor {
  import opened Wrappers
  import opened Paths

  /** One note as Basic Pitch reports it; only the number of notes is used. */
  datatype NoteEvent = NoteEvent(startTime: real, endTime: real, pitch: int, amplitude: real)

  /** What `predict` did: raised with a message, or returned its note events (possibly `None`). */
  datatype PredictOutcome =
    | PredictRaised(message: string)
    | Predicted(noteEvents: Option<seq<NoteEvent>>)

  /** What an external write did: raised with a message, or finished. */
  datatype WriteOutcome = WriteRaised(message: string) | Written

  /**
   * The behaviour of the three foreign steps on one run: `predict`,
   * `midi_data.write`, and music21's parse-and-write inside `_convert_to_musicxml`.
   */
  datatype ConversionRun = ConversionRun(predict: PredictOutcome, midiWrite: WriteOutcome, render: WriteOutcome)

  /** The dictionary `_transcribe_sync` returns on success. */
  datatype Conversion = Conversion(midiFile: Path, notesDetected: nat, status: string, musicxmlFile: Option<Path>)

  const FAILURE_PREFIX := "Transcription failed: "

  function MidiPath(outputDir: Path, id: string): Path {
    Join(outputDir, id + ".mid")
  }

  function MusicXmlPath(outputDir: Path, id: string): Path {
    Join(outputDir, id + ".musicxml")
  }

  /** `len(note_events) if note_events is not None else 0`. */
  function NotesDetected(noteEvents: Option<seq<NoteEvent>>): (n: nat)
    ensures noteEvents.None? ==> n == 0
    ensures noteEvents.Some? ==> n == |noteEvents.value|
  {
    match noteEvents
    case None => 0
    case Some(events) => |events|
  }

  /**
   * `_convert_to_musicxml`: the MusicXML path next to the MIDI file when
   * music21 succeeds, `None` on any exception. It never raises.
   */
  function ConvertToMusicXml(id: string, outputDir: Path, render: WriteOutcome): (r: Option<Path>)
    ensures r.Some? <==> render.Written?
    ensures r.Some? ==> r.value == MusicXmlPath(outputDir, id)
  {
    match render
    case WriteRaised(_) => None
    case Written => Some(MusicXmlPath(outputDir, id))
  }

  /**
   * `_transcribe_sync`: runs `predict`, writes `{output_dir}/{id}.mid`, counts
   * the notes and then tries the best-effort MusicXML step. An exception
   * from `predict` or from the MIDI write surfaces as a message with the
   * prefix "Transcription failed: ".
   */
  function TranscribeSync(id: string, outputDir: Path, run: ConversionRun): (r: Result<Conversion, string>)
    ensures r.Ok? <==> run.predict.Predicted? && run.midiWrite.Written?
    ensures r.Ok? ==> r.value.midiFile == MidiPath(outputDir, id) && r.value.status == "success"
    ensures r.Ok? ==> r.value.notesDetected == NotesDetected(run.predict.noteEvents)
    ensures r.Ok? ==> (r.value.musicxmlFile.Some? <==> run.render.Written?)
    ensures r.Ok? && r.value.musicxmlFile.Some? ==> r.value.musicxmlFile.value == MusicXmlPath(outputDir, id)
    ensures r.Err? && run.predict.PredictRaised? ==> r.error == FAILURE_PREFIX + run.predict.message
    ensures r.Err? && run.predict.Predicted? ==> r.error == FAILURE_PREFIX + run.midiWrite.message
  {
    var midiPath := MidiPath(outputDir, id);
    match run.predict
    case PredictRaised(m) => Err(FAILURE_PREFIX + m)
    case Predicted(noteEvents) =>
      match run.midiWrite
      case WriteRaised(m) => Err(FAILURE_PREFIX + m)
      case Written =>
        var result := Conversion(midiPath, NotesDetected(noteEvents), "success", None);
        var musicxmlPath := ConvertToMusicXml(id, outputDir, run.render);
        Ok(if musicxmlPath.Some? then result.(musicxmlFile := musicxmlPath) else result)
  }

  /**
   * Both artifacts are named after the id and sit side by side in the output
   * directory, so a download of either serves `{id}.mid` or `{id}.musicxml`.
   */
  lemma ArtifactNames(id: string, outputDir: Path, render: WriteOutcome)
    requires id != "" && '/' !in id
    ensures Name(MidiPath(outputDir, id)) == id + ".mid"
    ensures var x := ConvertToMusicXml(id, outputDir, render);
            x.Some? ==> Name(x.value) == id + ".musicxml" && x.value[..|outputDir| + 1] == outputDir + "/"
  {
    assert '/' !in id + ".mid";
    NameOfJoin(outputDir, id + ".mid");
    assert '/' !in id + ".musicxml";
    NameOfJoin(outputDir, id + ".musicxml");
  }

  /**
   * The MusicXML step is best effort: whatever music21 does, the call
   * succeeds or fails exactly as before, with the same MIDI path and count.
   */
  lemma MusicXmlNeverDecidesOutcome(id: string, outputDir: Path, run: ConversionRun, render: WriteOutcome)
    ensures var r := TranscribeSync(id, outputDir, run);
            var r' := TranscribeSync(id, outputDir, run.(render := render));
            && r.Ok? == r'.Ok?
            && (r.Ok? ==> r.value.(musicxmlFile := None) == r'.value.(musicxmlFile := None))
            && (r.Err? ==> r.error == r'.error)
  {
  }

  /** A failure message always starts with the prefix and ends with the cause. */
  lemma FailureMessageShape(id: string, outputDir: Path, run: ConversionRun)
    requires TranscribeSync(id, outputDir, run).Err?
    ensures var msg := TranscribeSync(id, outputDir, run).error;
            |FAILURE_PREFIX| <= |msg| && msg[..|FAILURE_PREFIX|] == FAILURE_PREFIX
  {
  }
}

=== FILE: lifecycle.dfy ===
/**
 * Properties that relate several endpoint calls: the shape every stored
 * record keeps, idempotence of transcribe, what disposal leaves behind,
 * and what the unsynchronised interleaving of two requests can do.
 */
module Lifecycle {
  import opened Wrappers
  import opened Paths
  import opened Storage
  import opened Server
  import AudioProcessor

  /** One request to the server, with the inputs the model takes as parameters. */
  datatype Request =
    | UploadRequest(filename: string, contentLength: nat, id: Id, now: Time)
    | TranscribeRequest(id: Id, run: AudioProcessor.ConversionRun, now: Time)
    | DownloadRequest(id: Id, fileType: string)
    | StatusRequest(id: Id)
    | DeleteRequest(id: Id)
    | CleanupRequest(now: Time)

  /** The state after one request runs to completion. */
  function Apply(s: State, req: Request): State {
    match req
    case UploadRequest(f, n, id, now) => UploadAudio(s, f, n, id, now).state
    case TranscribeRequest(id, run, now) => Transcribe(s, id, run, now).state
    case DownloadRequest(_, _) => s
    case StatusRequest(_) => s
    case DeleteRequest(id) => Delete(s, id).state
    case CleanupRequest(now) => Sweep(s, now)
  }

  /** The state after a sequence of requests, each run to completion before the next. */
  function Run(s: State, reqs: seq<Request>): State
    decreases |reqs|
  {
    if reqs == [] then s else Run(Apply(s, reqs[0]), reqs[1..])
  }

  /** The process starts with an empty registry; the disk may hold anything. */
  function Initial(files: Files): State {
    State(map[], files)
  }

  /** The shape of a stored record when no request is in flight. */
  predicate RecordOk(id: Id, job: Record) {
    && ValidateAudioFile(job.filename)
    && job.uploadPath == UploadPath(id, Suffix(job.filename))
    && job.status != Processing
    && (job.status == Completed <==> job.midiFile.Some?)
    && (job.status == Completed <==> job.musicxmlFile.Some?)
    && (job.status == Completed <==> job.notesDetected.Some?)
    && (job.midiFile.Some? ==> job.midiFile.value == AudioProcessor.MidiPath(TEMP_DIR, id))
    && (Flatten(job.musicxmlFile).Some? ==>
          Flatten(job.musicxmlFile).value == AudioProcessor.MusicXmlPath(TEMP_DIR, id))
    && (job.status == Failed ==> job.error.Some?)
    && (job.status == Uploaded ==> job.error.None?)
  }

  predicate WellFormed(s: State) {
    forall id :: id in s.registry ==> RecordOk(id, s.registry[id])
  }

  /** Upload stores a record of the right shape, even over an existing id. */
  lemma UploadPreservesWellFormed(s: State, filename: string, n: nat, id: Id, now: Time)
    requires WellFormed(s)
    ensures WellFormed(UploadAudio(s, filename, n, id, now).state)
  {
    var s' := UploadAudio(s, filename, n, id, now).state;
    forall other | other in s'.registry
      ensures RecordOk(other, s'.registry[other])
    {
      if other != id || !UploadAudio(s, filename, n, id, now).reply.Ok? {
        assert other in s.registry;
      }
    }
  }

  /** Completing a well-shaped, not yet completed record gives a well-shaped record. */
  lemma CompletedRecordOk(id: Id, job: Record, c: AudioProcessor.Conversion)
    requires RecordOk(id, job) && job.status != Completed
    requires c.midiFile == AudioProcessor.MidiPath(TEMP_DIR, id)
    requires c.musicxmlFile.Some? ==> c.musicxmlFile.value == AudioProcessor.MusicXmlPath(TEMP_DIR, id)
    ensures RecordOk(id, job.(status := Completed, midiFile := Some(c.midiFile),
                              musicxmlFile := Some(c.musicxmlFile), notesDetected := Some(c.notesDetected)))
  {
  }

  /** Failing a well-shaped, not yet completed record gives a well-shaped record. */
  lemma FailedRecordOk(id: Id, job: Record, msg: string)
    requires RecordOk(id, job) && job.status != Completed
    ensures RecordOk(id, job.(status := Failed, error := Some(msg)))
  {
  }

  /** A completed transcription stores the MIDI path, the MusicXML entry and the note count together. */
  lemma TranscribePreservesWellFormed(s: State, id: Id, run: AudioProcessor.ConversionRun, now: Time)
    requires WellFormed(s)
    ensures WellFormed(Transcribe(s, id, run, now).state)
  {
    var s' := Transcribe(s, id, run, now).state;
    if id in s.registry && s.registry[id].status != Completed {
      var job := s.registry[id];
      assert RecordOk(id, job);
      var c := AudioProcessor.TranscribeSync(id, TEMP_DIR, run);
      if c.Ok? {
        CompletedRecordOk(id, job, c.value);
      } else {
        FailedRecordOk(id, job, c.error);
      }
      assert RecordOk(id, s'.registry[id]);
      forall other | other in s'.registry
        ensures RecordOk(other, s'.registry[other])
      {
        if other != id {
          assert s'.registry[other] == s.registry[other];
        }
      }
    }
  }

  /** Delete only ever removes a record or keeps it as it was. */
  lemma DeletePreservesWellFormed(s: State, id: Id)
    requires WellFormed(s)
    ensures WellFormed(Delete(s, id).state)
  {
  }

  /** Every request keeps every stored record well-shaped. */
  lemma ApplyPreservesWellFormed(s: State, req: Request)
    requires WellFormed(s)
    ensures WellFormed(Apply(s, req))
  {
    match req
    case UploadRequest(f, n, id, now) => UploadPreservesWellFormed(s, f, n, id, now);
    case TranscribeRequest(id, run, now) => TranscribePreservesWellFormed(s, id, run, now);
    case DownloadRequest(_, _) =>
    case StatusRequest(_) =>
    case DeleteRequest(id) => DeletePreservesWellFormed(s, id);
    case CleanupRequest(now) =>
  }

  /** Every state reachable by sequential requests from start-up is well formed. */
  lemma {:induction false} ReachableStatesAreWellFormed(s: State, reqs: seq<Request>)
    requires WellFormed(s)
    ensures WellFormed(Run(s, reqs))
    decreases |reqs|
  {
    if reqs != [] {
      ApplyPreservesWellFormed(s, reqs[0]);
      ReachableStatesAreWellFormed(Apply(s, reqs[0]), reqs[1..]);
    }
  }

  /** From start-up, a job has a MIDI path exactly when it is completed, whatever requests ran. */
  lemma StartUpIsWellFormed(files: Files, reqs: seq<Request>)
    ensures WellFormed(Run(Initial(files), reqs))
    ensures forall id :: id in Run(Initial(files), reqs).registry ==>
              var job := Run(Initial(files), reqs).registry[id];
              job.status == Completed <==> job.midiFile.Some?
  {
    ReachableStatesAreWellFormed(Initial(files), reqs);
  }

  /** Upload is the only request that creates a record, and only with a fresh id it leaves others alone. */
  predicate FreshId(s: State, req: Request) {
    req.UploadRequest? ==> req.id !in s.registry
  }

  /**
   * Under fresh ids, a completed record is final: no request changes it;
   * it only disappears through a successful delete.
   */
  lemma CompletedIsFinal(s: State, req: Request, id: Id)
    requires FreshId(s, req)
    requires id in s.registry && s.registry[id].status == Completed
    ensures var s' := Apply(s, req);
            id in s'.registry ==> s'.registry[id] == s.registry[id]
    ensures id !in Apply(s, req).registry <==>
              req.DeleteRequest? && req.id == id && s.registry[id].musicxmlFile != Some(None)
  {
  }

  /** The status changes a single request may make to a record. */
  predicate MayFollow(before: JobStatus, after: JobStatus) {
    || before == after
    || (before == Uploaded && after in {Completed, Failed})
    || (before == Failed && after == Completed)
  }

  /**
   * Status moves Uploaded -> Completed | Failed and Failed -> Completed | Failed
   * under sequential requests with fresh ids. A failed job can be re-run
   * and completed, and nothing returns to Uploaded.
   */
  lemma StatusMovesForward(s: State, req: Request, id: Id)
    requires id in s.registry && s.registry[id].status != Processing
    requires FreshId(s, req)
    ensures id in Apply(s, req).registry ==>
              MayFollow(s.registry[id].status, Apply(s, req).registry[id].status)
  {
  }

  /** Not-found requests change nothing, whatever the endpoint. */
  lemma UnknownIdIsNotFound(s: State, id: Id, run: AudioProcessor.ConversionRun, now: Time, fileType: string)
    requires id !in s.registry
    ensures Transcribe(s, id, run, now) == Response(s, Err(NotFound(TRANSCRIPTION_NOT_FOUND)))
    ensures GetStatus(s, id) == Err(NotFound(TRANSCRIPTION_NOT_FOUND))
    ensures Download(s, id, fileType) == Err(NotFound(TRANSCRIPTION_NOT_FOUND))
    ensures Delete(s, id) == Response(s, Err(NotFound(TRANSCRIPTION_NOT_FOUND)))
    ensures forall e :: Transcribe(s, id, run, now).reply == Err(e) ==> e.StatusCode() == 404
  {
  }

  /**
   * Transcribing again after success repeats no work: whatever the
   * conversion would do now, the state is untouched and the reply carries
   * the same MIDI and MusicXML paths.
   */
  lemma SecondTranscribeRepeatsNoWork(s: State, id: Id, first: AudioProcessor.ConversionRun, second: AudioProcessor.ConversionRun, t1: Time, t2: Time)
    requires Transcribe(s, id, first, t1).reply.Ok?
    ensures var r1 := Transcribe(s, id, first, t1);
            var r2 := Transcribe(r1.state, id, second, t2);
            && r2.state == r1.state
            && r2.reply.Ok?
            && r2.reply.value.midiFile == r1.reply.value.midiFile
            && r2.reply.value.musicxmlFile == r1.reply.value.musicxmlFile
            && r2.reply.value.createdAt == r1.reply.value.createdAt
  {
    var r1 := Transcribe(s, id, first, t1);
    assert id in s.registry;
    var job := s.registry[id];
    if job.status != Completed {
      var c := AudioProcessor.TranscribeSync(id, TEMP_DIR, first).value;
      assert r1.state.registry[id].musicxmlFile == Some(c.musicxmlFile);
    }
  }

  /**
   * A successful transcription stores the conversion's MIDI path, its
   * MusicXML path when there is one and its note count, and leaves the
   * upload's own fields as they were.
   */
  lemma TranscribeSuccessRecords(s: State, id: Id, run: AudioProcessor.ConversionRun, now: Time)
    requires id in s.registry && s.registry[id].status != Completed
    requires run.predict.Predicted? && run.midiWrite.Written?
    ensures var job' := Transcribe(s, id, run, now).state.registry[id];
            var job := s.registry[id];
            && job'.status == Completed
            && job'.midiFile == Some(AudioProcessor.MidiPath(TEMP_DIR, id))
            && job'.notesDetected == Some(AudioProcessor.NotesDetected(run.predict.noteEvents))
            && (run.render.Written? ==> job'.musicxmlFile == Some(Some(AudioProcessor.MusicXmlPath(TEMP_DIR, id))))
            && (run.render.WriteRaised? ==> job'.musicxmlFile == Some(None))
            && job'.filename == job.filename && job'.uploadPath == job.uploadPath
            && job'.createdAt == job.createdAt && job'.error == job.error
    ensures AudioProcessor.MidiPath(TEMP_DIR, id) in Transcribe(s, id, run, now).state.files
  {
  }

  /**
   * A file is at least 24 hours safe from the sweep: an upload made at
   * `now` survives every sweep up to `now + RETENTION`.
   */
  lemma FreshUploadSurvivesSweep(s: State, filename: string, contentLength: nat, id: Id, now: Time, later: Time)
    requires ValidateAudioFile(filename) && contentLength <= MAX_FILE_SIZE
    requires later <= now + RETENTION
    ensures var r := UploadAudio(s, filename, contentLength, id, now);
            && UploadPath(id, Suffix(filename)) in Sweep(r.state, later).files
            && Sweep(r.state, later).registry[id] == r.state.registry[id]
  {
    UploadStamps(s, filename, contentLength, id, now);
  }

  /** Likewise, the MIDI file of a conversion finished at `now` survives every sweep up to `now + RETENTION`. */
  lemma FreshMidiSurvivesSweep(s: State, id: Id, run: AudioProcessor.ConversionRun, now: Time, later: Time)
    requires id in s.registry && s.registry[id].status != Completed
    requires run.predict.Predicted? && run.midiWrite.Written?
    requires later <= now + RETENTION
    ensures AudioProcessor.MidiPath(TEMP_DIR, id) in Sweep(Transcribe(s, id, run, now).state, later).files
  {
    var c := AudioProcessor.TranscribeSync(id, TEMP_DIR, run).value;
    assert c.midiFile == AudioProcessor.MidiPath(TEMP_DIR, id);
    assert Transcribe(s, id, run, now).state.files == WriteArtifacts(s.files, c, now);
  }

  /**
   * Polling after a transcription shows its outcome: the record is there,
   * completed exactly when the call succeeded, and carrying the failure
   * message when it did not.
   */
  lemma StatusShowsTranscription(s: State, id: Id, run: AudioProcessor.ConversionRun, now: Time)
    requires id in s.registry
    ensures var r := Transcribe(s, id, run, now);
            var st := GetStatus(r.state, id);
            && st.Ok?
            && (st.value.status == Completed <==> r.reply.Ok?)
            && (r.reply.Err? ==> st.value.status == Failed
                                 && st.value.error == Some(AudioProcessor.TranscribeSync(id, TEMP_DIR, run).error))
  {
  }

  /**
   * A failed conversion marks the record failed with the processor's
   * message and surfaces it doubly prefixed as a 500, without new files.
   */
  lemma TranscribeFailureRecords(s: State, id: Id, run: AudioProcessor.ConversionRun, now: Time)
    requires id in s.registry && s.registry[id].status != Completed
    requires run.predict.PredictRaised?
    ensures var r := Transcribe(s, id, run, now);
            var msg := AudioProcessor.FAILURE_PREFIX + run.predict.message;
            && r.state.registry[id] == s.registry[id].(status := Failed, error := Some(msg))
            && r.reply == Err(TranscriptionFailed(msg))
            && r.reply.error.StatusCode() == 500
            && r.state.files == s.files
  {
  }

  /** A failed job is simply re-run: with a good conversion it completes. */
  lemma FailedJobIsRerun(s: State, id: Id, run: AudioProcessor.ConversionRun, now: Time)
    requires id in s.registry && s.registry[id].status == Failed
    requires run.predict.Predicted? && run.midiWrite.Written?
    ensures Transcribe(s, id, run, now).reply.Ok?
    ensures Transcribe(s, id, run, now).state.registry[id].status == Completed
    ensures Transcribe(s, id, run, now).state.registry[id].error == s.registry[id].error
  {
  }

  /**
   * After a successful delete the id is unknown to every endpoint and none
   * of the files the record named remains.
   */
  lemma DeletedJobIsGone(s: State, id: Id, run: AudioProcessor.ConversionRun, now: Time, fileType: string)
    requires Delete(s, id).reply.Ok?
    ensures var s' := Delete(s, id).state;
            && GetStatus(s', id) == Err(NotFound(TRANSCRIPTION_NOT_FOUND))
            && Download(s', id, fileType) == Err(NotFound(TRANSCRIPTION_NOT_FOUND))
            && Transcribe(s', id, run, now).reply == Err(NotFound(TRANSCRIPTION_NOT_FOUND))
            && (forall p :: p in ReferencedPaths(s.registry[id]) ==> p !in s'.files)
            && (forall other :: other != id && other in s.registry ==>
                  other in s'.registry && s'.registry[other] == s.registry[other])
  {
  }

  /**
   * A completed job whose MusicXML step failed cannot be deleted: the
   * request fails with 500 after unlinking the upload and the MIDI file,
   * and the record stays, now naming a MIDI file that is gone.
   */
  lemma DeleteWithoutMusicXmlFails(s: State, id: Id)
    requires id in s.registry && s.registry[id].status == Completed
    requires s.registry[id].musicxmlFile == Some(None) && s.registry[id].midiFile.Some?
    ensures var r := Delete(s, id);
            && r.reply.Err? && r.reply.error.StatusCode() == 500
            && r.state.registry == s.registry
            && s.registry[id].uploadPath !in r.state.files
            && Download(r.state, id, "midi") == Err(NotFound("MIDI file not found"))
  {
    assert Upper("midi") + " file not found" == "MIDI file not found";
  }

  /**
   * Deleting a job while its conversion is in flight does not bring it
   * back: the late update goes to a detached record. A successful
   * conversion still leaves its MIDI file on disk, owned by no record.
   */
  lemma InflightDeleteIsNotUndone(s: State, id: Id, run: AudioProcessor.ConversionRun, now: Time)
    requires id in s.registry && s.registry[id].status != Completed
    requires Delete(BeginTranscription(s, id), id).reply.Ok?
    ensures var s1 := Delete(BeginTranscription(s, id), id).state;
            var r := FinishTranscription(s1, id, s.registry[id], run, now);
            && id !in r.state.registry
            && r.state.registry == s1.registry
            && (r.reply.Ok? ==> AudioProcessor.MidiPath(TEMP_DIR, id) in r.state.files)
  {
  }

  /**
   * Two transcribe requests for one id can interleave: both begin, the
   * first conversion succeeds, the second fails. The record ends "failed"
   * although it names a MIDI file, a shape no sequential run produces.
   */
  lemma InterleavedRunsCanFailACompletedJob(files: Files, id: Id, filename: string, t: Time, ok: AudioProcessor.ConversionRun, bad: AudioProcessor.ConversionRun)
    requires ValidateAudioFile(filename)
    requires ok.predict.Predicted? && ok.midiWrite.Written?
    requires bad.predict.PredictRaised?
    ensures var s0 := UploadAudio(Initial(files), filename, 0, id, t).state;
            var job := s0.registry[id];
            var s1 := BeginTranscription(BeginTranscription(s0, id), id);
            var s2 := FinishTranscription(s1, id, job, ok, t).state;
            var s3 := FinishTranscription(s2, id, job, bad, t).state;
            && s3.registry[id].status == Failed
            && s3.registry[id].midiFile.Some?
            && !WellFormed(s3)
  {
  }

  /** A completed job whose MIDI file is not on disk answers a MIDI download with 404. */
  lemma MissingMidiIsNotFound(s: State, id: Id)
    requires id in s.registry && s.registry[id].status == Completed
    requires s.registry[id].midiFile.Some? && s.registry[id].midiFile.value !in s.files
    ensures Download(s, id, "midi") == Err(NotFound("MIDI file not found"))
  {
    assert Upper("midi") + " file not found" == "MIDI file not found";
  }

  /**
   * The sweep does not know about records: once a completed job's MIDI
   * file is older than 24 hours it is deleted and download reports it missing.
   */
  lemma SweepOrphansCompletedJob(s: State, id: Id, now: Time)
    requires id in s.registry && s.registry[id].status == Completed
    requires s.registry[id].midiFile == Some(AudioProcessor.MidiPath(TEMP_DIR, id))
    requires '/' !in id
    requires var p := AudioProcessor.MidiPath(TEMP_DIR, id); p in s.files && Expired(s.files[p], now)
    ensures GetStatus(Sweep(s, now), id) == GetStatus(s, id)
    ensures Download(Sweep(s, now), id, "midi") == Err(NotFound("MIDI file not found"))
  {
    var p := AudioProcessor.MidiPath(TEMP_DIR, id);
    assert '/' !in id + ".mid";
    JoinIsInDir(TEMP_DIR, id + ".mid");
    var s' := Sweep(s, now);
    assert p !in s'.files by {
      assert Doomed(s.files, p, now);
    }
    MissingMidiIsNotFound(s', id);
  }

  /**
   * End to end: a valid upload followed by a good conversion yields a
   * completed job whose MIDI file can be downloaded and whose note count
   * is the number of events the model detected.
   */
  lemma UploadThenTranscribe(files: Files, filename: string, size: nat, id: Id, run: AudioProcessor.ConversionRun, t1: Time, t2: Time)
    requires ValidateAudioFile(filename) && size <= MAX_FILE_SIZE
    requires run.predict.Predicted? && run.midiWrite.Written?
    ensures var s1 := UploadAudio(Initial(files), filename, size, id, t1).state;
            var r := Transcribe(s1, id, run, t2);
            && r.reply.Ok? && r.reply.value.status == Completed
            && r.state.registry[id].notesDetected == Some(AudioProcessor.NotesDetected(run.predict.noteEvents))
            && Download(r.state, id, "midi") == Ok(AudioProcessor.MidiPath(TEMP_DIR, id))
  {
    var s1 := UploadAudio(Initial(files), filename, size, id, t1).state;
    var r := Transcribe(s1, id, run, t2);
    assert AudioProcessor.MidiPath(TEMP_DIR, id) in r.state.files;
  }
}

=== FILE: paths.dfy ===
/**
 * The parts of Python's `pathlib` and `str` that the server relies on:
 * the final component of a path, its last suffix, ASCII lower-casing and
 * joining a directory with a file name.
 */
module Paths {

  type Path = string

  /** Index of the last occurrence of `c` in `s`, or -1 when there is none (`str.rfind`). */
  function RFind(s: string, c: char): (r: int)
    ensures -1 <= r < |s|
    ensures r >= 0 ==> s[r] == c
    ensures forall k :: r < k < |s| ==> s[k] != c
  {
    if |s| == 0 then -1
    else if s[|s| - 1] == c then |s| - 1
    else RFind(s[..|s| - 1], c)
  }

  /** Nothing after the last occurrence of `c` is `c`. */
  lemma AfterRFind(s: string, c: char)
    ensures c !in s[RFind(s, c) + 1..]
  {
  }

  /** `RFind` finds exactly the last occurrence. */
  lemma RFindIsLast(s: string, c: char, j: int)
    requires 0 <= j < |s| && s[j] == c
    requires forall k :: j < k < |s| ==> s[k] != c
    ensures RFind(s, c) == j
  {
  }

  /**
   * `PurePosixPath(p).name`: the last component, where empty components
   * (from repeated or trailing slashes) and `.` components are dropped.
   */
  function Name(p: string): (n: string)
    ensures '/' !in n
    ensures n != "."
    ensures '/' !in p && p != "" && p != "." ==> n == p
    decreases |p|
  {
    var i := RFind(p, '/');
    var last := p[i + 1..];
    AfterRFind(p, '/');
    if last != "" && last != "." then last
    else if i < 0 then ""
    else Name(p[..i])
  }

  /** A file joined onto a directory is that path's name. */
  lemma NameOfJoin(dir: Path, m: string)
    requires '/' !in m && m != "" && m != "."
    ensures Name(Join(dir, m)) == m
  {
    var p := Join(dir, m);
    RFindIsLast(p, '/', |dir|);
    assert p[|dir| + 1..] == m;
  }

  /** A trailing slash does not change the name. */
  lemma NameIgnoresTrailingSlash(p: string)
    ensures Name(p + "/") == Name(p)
  {
    var q := p + "/";
    RFindIsLast(q, '/', |p|);
    assert q[..|p|] == p;
  }

  /**
   * A final `.` component is skipped, and a path with no component other
   * than empty and `.` ones has the empty name.
   */
  lemma NameSkipsDot(p: string)
    ensures Name(p + "/.") == Name(p)
    ensures Name("") == "" && Name("/") == "" && Name(".") == ""
  {
    var q := p + "/.";
    RFindIsLast(q, '/', |p|);
    assert q[|p| + 1..] == ".";
    assert q[..|p|] == p;
    assert RFind("/", '/') == 0;
  }

  /**
   * `PurePath(p).suffix`: from the last dot of the name to its end, provided
   * that dot is neither the name's first nor its last character.
   */
  function Suffix(p: string): (x: string)
    ensures x == "" || (|x| >= 2 && x[0] == '.')
    ensures forall k :: 0 < k < |x| ==> x[k] != '.' && x[k] != '/'
    ensures x != "" ==> |x| < |Name(p)| && Name(p)[|Name(p)| - |x|..] == x
    ensures x == "" ==> forall i :: 0 < i < |Name(p)| - 1 && Name(p)[i] == '.' ==> '.' in Name(p)[i + 1..]
  {
    var name := Name(p);
    var i := RFind(name, '.');
    if 0 < i < |name| - 1 then
      assert name[|name| - |name[i..]|..] == name[i..];
      name[i..]
    else
      NoInnerDotLeft(name);
      ""
  }

  /**
   * When the last dot of `name` is not strictly inside it, every inner dot
   * is followed by another one (the final character).
   */
  lemma NoInnerDotLeft(name: string)
    requires var i := RFind(name, '.'); !(0 < i < |name| - 1)
    ensures forall i :: 0 < i < |name| - 1 && name[i] == '.' ==> '.' in name[i + 1..]
  {
    forall i | 0 < i < |name| - 1 && name[i] == '.'
      ensures '.' in name[i + 1..]
    {
      var r := RFind(name, '.');
      assert r == |name| - 1;
      assert name[i + 1..][r - i - 1] == '.';
    }
  }

  /** `str.lower` restricted to ASCII letters. */
  function LowerChar(c: char): char {
    if 'A' <= c <= 'Z' then (c as int + 32) as char else c
  }

  /** Only a dot lower-cases to a dot. */
  lemma LowerDot(c: char)
    ensures LowerChar(c) == '.' <==> c == '.'
  {
  }

  function Lower(s: string): (r: string)
    ensures |r| == |s|
    ensures forall k :: 0 <= k < |s| ==> r[k] == LowerChar(s[k])
  {
    seq(|s|, k requires 0 <= k < |s| => LowerChar(s[k]))
  }

  /**
   * What ASCII lower-casing means: the same length, dots exactly where they
   * were, no capital letter left, every other character kept, and a second
   * pass changes nothing.
   */
  lemma LowerMeaning(s: string)
    ensures |Lower(s)| == |s|
    ensures forall k :: 0 <= k < |s| ==> (Lower(s)[k] == '.' <==> s[k] == '.')
    ensures forall k :: 0 <= k < |s| ==> !('A' <= Lower(s)[k] <= 'Z')
    ensures forall k :: 0 <= k < |s| && !('A' <= s[k] <= 'Z') ==> Lower(s)[k] == s[k]
    ensures Lower(Lower(s)) == Lower(s)
  {
  }

  /** `str(Path(dir) / name)` for a directory without a trailing slash. */
  function Join(dir: Path, name: string): Path {
    dir + "/" + name
  }
}

=== FILE: server.dfy ===
/**
 * The transcription registry of `backend/main.py` and its five endpoints:
 * upload, transcribe, download, status and delete. The registry is a map
 * from id to record; the filesystem is a map from path to modification
 * time. Each endpoint returns the new state together with either its reply
 * or the HTTP error it raises.
 */
module Server {
  import opened Wrappers
  import opened Paths
  import opened Storage
  import AudioProcessor

  type Id = string

  /** The values of a record's "status" key. */
  datatype JobStatus = Uploaded | Processing | Completed | Failed

  /**
   * One entry of `transcriptions`. An absent key is `None`. The
   * "musicxml_file" key can be present with the value `None`, hence the
   * nested option.
   */
  datatype Record = Record(
    status: JobStatus,
    filename: string,
    uploadPath: Path,
    createdAt: Time,
    midiFile: Option<Path>,
    musicxmlFile: Option<Option<Path>>,
    notesDetected: Option<nat>,
    error: Option<string>)

  type Registry = map<Id, Record>

  datatype State = State(registry: Registry, files: Files)

  /**
   * The `HTTPException`s the endpoints raise, and the unhandled `TypeError`
   * of delete, which the client sees as a bare 500.
   */
  datatype Error =
    | InvalidFileType
    | UploadFailed(cause: string)
    | NotFound(detail: string)
    | BadRequest(detail: string)
    | TranscriptionFailed(cause: string)
    | InternalError
  {
    function StatusCode(): nat {
      match this
      case InvalidFileType => 400
      case UploadFailed(_) => 500
      case NotFound(_) => 404
      case BadRequest(_) => 400
      case TranscriptionFailed(_) => 500
      case InternalError => 500
    }
  }

  /** The state after an endpoint ran, and what the client receives. */
  datatype Response<T> = Response(state: State, reply: Result<T, Error>)

  /** `TranscriptionResponse` of the upload and transcribe endpoints. */
  datatype TranscriptionResponse = TranscriptionResponse(
    transcriptionId: Id,
    status: JobStatus,
    message: string,
    midiFile: Option<Path>,
    musicxmlFile: Option<Path>,
    createdAt: Time)

  const TRANSCRIPTION_NOT_FOUND := "Transcription not found"
  const NOT_COMPLETED := "Transcription not completed"
  const INVALID_DOWNLOAD_TYPE := "Invalid file type. Use 'midi' or 'musicxml'"
  /** `str()` of the 413 `HTTPException` raised inside upload's `try`. */
  const TOO_LARGE := "413: File too large. Maximum size: 50MB"

  /** `dict.get` on the "musicxml_file" key: absent and `None` read the same. */
  function Flatten(p: Option<Option<Path>>): Option<Path> {
    match p
    case Some(Some(q)) => Some(q)
    case _ => None
  }

  /** The record upload creates. */
  function NewRecord(id: Id, filename: string, now: Time): Record {
    Record(Uploaded, filename, UploadPath(id, Suffix(filename)), now, None, None, None, None)
  }

  // ---------------------------------------------------------------------------
  // upload_audio
  // ---------------------------------------------------------------------------

  /**
   * `upload_audio` with a fresh `id` and the request time `now`; only the
   * length of the content matters. An invalid extension is a 400 before
   * anything happens. An oversized file raises 413 inside the `try`, whose
   * handler unlinks the upload path and re-raises as 500. Otherwise the
   * file is written and an "uploaded" record is stored.
   */
  function UploadAudio(s: State, filename: string, contentLength: nat, id: Id, now: Time)
    : (r: Response<TranscriptionResponse>)
    ensures !ValidateAudioFile(filename) ==> r == Response(s, Err(InvalidFileType))
    ensures ValidateAudioFile(filename) && contentLength > MAX_FILE_SIZE ==>
              && r.reply == Err(UploadFailed(TOO_LARGE))
              && r.state.registry == s.registry
              && UploadPath(id, Suffix(filename)) !in r.state.files
              && r.state.files == s.files - {UploadPath(id, Suffix(filename))}
    ensures r.reply.Ok? <==> ValidateAudioFile(filename) && contentLength <= MAX_FILE_SIZE
    ensures r.reply.Ok? ==>
              && r.reply.value.transcriptionId == id
              && r.reply.value.status == Uploaded
              && r.state.registry.Keys == s.registry.Keys + {id}
              && r.state.registry[id].status == Uploaded
              && r.state.registry[id].uploadPath == Join(UPLOAD_DIR, id + Suffix(filename))
              && r.state.registry[id].uploadPath in r.state.files
              && r.state.files.Keys == s.files.Keys + {r.state.registry[id].uploadPath}
    ensures forall other :: other != id && other in s.registry ==>
              other in r.state.registry && r.state.registry[other] == s.registry[other]
  {
    if !ValidateAudioFile(filename) then
      Response(s, Err(InvalidFileType))
    else
      var uploadPath := UploadPath(id, Suffix(filename));
      if contentLength > MAX_FILE_SIZE then
        Response(State(s.registry, s.files - {uploadPath}), Err(UploadFailed(TOO_LARGE)))
      else
        var files := s.files[uploadPath := now];
        var registry := s.registry[id := NewRecord(id, filename, now)];
        Response(State(registry, files),
                 Ok(TranscriptionResponse(id, Uploaded,
                                          "File uploaded successfully. Use /api/transcribe to process.",
                                          None, None, now)))
  }

  /**
   * A successful upload stores the client's file name and the request time,
   * answers with that time, stamps the new file with it, and leaves every
   * other file as it was.
   */
  lemma UploadStamps(s: State, filename: string, contentLength: nat, id: Id, now: Time)
    requires ValidateAudioFile(filename) && contentLength <= MAX_FILE_SIZE
    ensures var r := UploadAudio(s, filename, contentLength, id, now);
            var up := UploadPath(id, Suffix(filename));
            && r.state.files[up] == now
            && r.state.registry[id].filename == filename
            && r.state.registry[id].createdAt == now
            && r.reply.value.createdAt == now
            && (forall p :: p in s.files && p != up ==> r.state.files[p] == s.files[p])
  {
    var r := UploadAudio(s, filename, contentLength, id, now);
    var up := UploadPath(id, Suffix(filename));
    assert r.state.files == s.files[up := now];
    assert r.state.registry[id] == NewRecord(id, filename, now);
  }

  // ---------------------------------------------------------------------------
  // transcribe_audio
  // ---------------------------------------------------------------------------

  /** The files a successful conversion leaves behind, stamped `now`. */
  function WriteArtifacts(files: Files, c: AudioProcessor.Conversion, now: Time): (files': Files)
    ensures c.midiFile in files'
    ensures c.musicxmlFile.Some? ==> c.musicxmlFile.value in files'
    ensures forall p :: p in files' <==> p in files || p == c.midiFile || Some(p) == c.musicxmlFile
    ensures files'[c.midiFile] == now
    ensures c.musicxmlFile.Some? ==> files'[c.musicxmlFile.value] == now
    ensures forall p :: p in files && p != c.midiFile && Some(p) != c.musicxmlFile ==> files'[p] == files[p]
  {
    var withMidi := files[c.midiFile := now];
    if c.musicxmlFile.Some? then withMidi[c.musicxmlFile.value := now] else withMidi
  }

  /** The part of `transcribe_audio` before the `await`: the record's status becomes "processing". */
  function BeginTranscription(s: State, id: Id): (s': State)
    ensures s'.files == s.files && s'.registry.Keys == s.registry.Keys
    ensures id in s.registry ==> s'.registry[id] == s.registry[id].(status := Processing)
    ensures forall other :: other != id && other in s.registry ==> s'.registry[other] == s.registry[other]
  {
    if id in s.registry then
      State(s.registry[id := s.registry[id].(status := Processing)], s.files)
    else s
  }

  /**
   * The part of `transcribe_audio` after the `await`. `job` is the record
   * object the request read before it. The update goes to that object: if
   * the id was deleted meanwhile, the object is detached and the registry
   * does not change, though the artifacts are still written.
   */
  function FinishTranscription(s: State, id: Id, job: Record, run: AudioProcessor.ConversionRun, now: Time)
    : (r: Response<TranscriptionResponse>)
    ensures r.state.registry.Keys == s.registry.Keys
    ensures forall other :: other != id && other in s.registry ==> r.state.registry[other] == s.registry[other]
    ensures r.reply.Ok? <==> AudioProcessor.TranscribeSync(id, TEMP_DIR, run).Ok?
    ensures r.reply.Ok? && id in s.registry ==>
              var c := AudioProcessor.TranscribeSync(id, TEMP_DIR, run).value;
              r.state.registry[id] == s.registry[id].(status := Completed, midiFile := Some(c.midiFile),
                                                      musicxmlFile := Some(c.musicxmlFile),
                                                      notesDetected := Some(c.notesDetected))
    ensures r.reply.Err? ==>
              var msg := AudioProcessor.TranscribeSync(id, TEMP_DIR, run).error;
              && r.reply.error == TranscriptionFailed(msg)
              && r.state.files == s.files
              && (id in s.registry ==> r.state.registry[id] == s.registry[id].(status := Failed, error := Some(msg)))
    ensures r.reply.Ok? ==> r.state.files == WriteArtifacts(s.files, AudioProcessor.TranscribeSync(id, TEMP_DIR, run).value, now)
  {
    match AudioProcessor.TranscribeSync(id, TEMP_DIR, run)
    case Ok(c) =>
      var registry :=
        if id in s.registry then
          s.registry[id := s.registry[id].(status := Completed, midiFile := Some(c.midiFile),
                                           musicxmlFile := Some(c.musicxmlFile),
                                           notesDetected := Some(c.notesDetected))]
        else s.registry;
      Response(State(registry, WriteArtifacts(s.files, c, now)),
               Ok(TranscriptionResponse(id, Completed, "Transcription completed successfully",
                                        Some(c.midiFile), c.musicxmlFile, job.createdAt)))
    case Err(msg) =>
      var registry :=
        if id in s.registry then s.registry[id := s.registry[id].(status := Failed, error := Some(msg))]
        else s.registry;
      Response(State(registry, s.files), Err(TranscriptionFailed(msg)))
  }

  /**
   * `transcribe_audio` run without interleaving: not found, the stored
   * result of a completed record, or a fresh conversion for a record in
   * any other status (there is no conflict check).
   */
  function Transcribe(s: State, id: Id, run: AudioProcessor.ConversionRun, now: Time)
    : (r: Response<TranscriptionResponse>)
    ensures id !in s.registry ==> r == Response(s, Err(NotFound(TRANSCRIPTION_NOT_FOUND)))
    ensures id in s.registry && s.registry[id].status == Completed ==>
              && r.state == s
              && r.reply == Ok(TranscriptionResponse(id, Completed, "Already transcribed",
                                                     s.registry[id].midiFile,
                                                     Flatten(s.registry[id].musicxmlFile),
                                                     s.registry[id].createdAt))
    ensures r.state.registry.Keys == s.registry.Keys
    ensures forall other :: other != id && other in s.registry ==> r.state.registry[other] == s.registry[other]
    ensures id in s.registry ==> r.state.registry[id].status in {Completed, Failed}
    ensures id in s.registry ==> (r.reply.Ok? <==> r.state.registry[id].status == Completed)
    ensures forall p :: p in s.files && p != AudioProcessor.MidiPath(TEMP_DIR, id) && p != AudioProcessor.MusicXmlPath(TEMP_DIR, id) ==>
              p in r.state.files && r.state.files[p] == s.files[p]
  {
    if id !in s.registry then
      Response(s, Err(NotFound(TRANSCRIPTION_NOT_FOUND)))
    else
      var job := s.registry[id];
      if job.status == Completed then
        Response(s, Ok(TranscriptionResponse(id, Completed, "Already transcribed",
                                             job.midiFile, Flatten(job.musicxmlFile), job.createdAt)))
      else
        FinishTranscription(BeginTranscription(s, id), id, job, run, now)
  }

  // ---------------------------------------------------------------------------
  // download_file
  // ---------------------------------------------------------------------------

  /** The path `download_file` selects for `fileType`, if `fileType` is valid. */
  function SelectArtifact(job: Record, fileType: string): Option<Option<Path>> {
    if fileType == "midi" then Some(job.midiFile)
    else if fileType == "musicxml" then Some(Flatten(job.musicxmlFile))
    else None
  }

  /** `file_type.upper()` for the two file types that reach the existence test. */
  function Upper(fileType: string): string {
    if fileType == "midi" then "MIDI" else "MUSICXML"
  }

  /**
   * `download_file`: succeeds with the selected path exactly when the
   * record exists, is completed, the file type is "midi" or "musicxml"
   * and the selected path is non-empty and on disk.
   */
  function Download(s: State, id: Id, fileType: string): (r: Result<Path, Error>)
    ensures r.Ok? <==>
              && id in s.registry
              && s.registry[id].status == Completed
              && (fileType == "midi" || fileType == "musicxml")
              && var p := SelectArtifact(s.registry[id], fileType).value;
                 p.Some? && p.value != "" && p.value in s.files
    ensures r.Ok? ==> r.value in s.files
    ensures r.Ok? && fileType == "midi" ==> Some(r.value) == s.registry[id].midiFile
    ensures r.Ok? && fileType == "musicxml" ==> s.registry[id].musicxmlFile == Some(Some(r.value))
    ensures id !in s.registry ==> r == Err(NotFound(TRANSCRIPTION_NOT_FOUND))
    ensures id in s.registry && s.registry[id].status != Completed ==> r == Err(BadRequest(NOT_COMPLETED))
  {
    if id !in s.registry then Err(NotFound(TRANSCRIPTION_NOT_FOUND))
    else
      var job := s.registry[id];
      if job.status != Completed then Err(BadRequest(NOT_COMPLETED))
      else match SelectArtifact(job, fileType)
        case None => Err(BadRequest(INVALID_DOWNLOAD_TYPE))
        case Some(filePath) =>
          if filePath.None? || filePath.value == "" || filePath.value !in s.files then
            Err(NotFound(Upper(fileType) + " file not found"))
          else Ok(filePath.value)
  }

  // ---------------------------------------------------------------------------
  // get_status
  // ---------------------------------------------------------------------------

  /** `get_status`: the whole stored record, or not found. */
  function GetStatus(s: State, id: Id): Result<Record, Error> {
    if id in s.registry then Ok(s.registry[id]) else Err(NotFound(TRANSCRIPTION_NOT_FOUND))
  }

  // ---------------------------------------------------------------------------
  // delete_transcription
  // ---------------------------------------------------------------------------

  /** Every path a record refers to under its three path keys. */
  function ReferencedPaths(job: Record): set<Path> {
    {job.uploadPath}
    + (if job.midiFile.Some? then {job.midiFile.value} else {})
    + (if Flatten(job.musicxmlFile).Some? then {Flatten(job.musicxmlFile).value} else {})
  }

  /**
   * `delete_transcription`: unlinks the upload, MIDI and MusicXML files in
   * that order, then drops the record. A "musicxml_file" key holding `None`
   * makes `Path(None)` raise after the first two unlinks: the request fails
   * with 500 and the record stays.
   */
  function Delete(s: State, id: Id): (r: Response<string>)
    ensures id !in s.registry ==> r == Response(s, Err(NotFound(TRANSCRIPTION_NOT_FOUND)))
    ensures id in s.registry && s.registry[id].musicxmlFile != Some(None) ==>
              && r.reply.Ok?
              && r.state.registry == s.registry - {id}
              && r.state.files == s.files - ReferencedPaths(s.registry[id])
    ensures id in s.registry && s.registry[id].musicxmlFile == Some(None) ==>
              && r.reply == Err(InternalError)
              && r.state.registry == s.registry
              && r.state.files == s.files - ReferencedPaths(s.registry[id])
  {
    if id !in s.registry then
      Response(s, Err(NotFound(TRANSCRIPTION_NOT_FOUND)))
    else
      var job := s.registry[id];
      var files := s.files - {job.uploadPath};
      var files := if job.midiFile.Some? then files - {job.midiFile.value} else files;
      match job.musicxmlFile
      case Some(None) => Response(State(s.registry, files), Err(InternalError))
      case Some(Some(p)) =>
        Response(State(s.registry - {id}, files - {p}), Ok("Transcription deleted successfully"))
      case None =>
        Response(State(s.registry - {id}, files), Ok("Transcription deleted successfully"))
  }

  // ---------------------------------------------------------------------------
  // cleanup_old_files, as a state transition
  // ---------------------------------------------------------------------------

  /** The retention sweep scheduled after each successful upload; it never touches the registry. */
  function Sweep(s: State, now: Time): (s': State)
    ensures s'.registry == s.registry
    ensures forall p :: p in s.files ==> (p !in s'.files <==> Doomed(s.files, p, now))
    ensures forall p :: p in s'.files ==> p in s.files && s'.files[p] == s.files[p]
  {
    State(s.registry, Swept(s.files, now))
  }
}

=== FILE: storage.dfy ===
/**
 * The artifact store of `backend/main.py`: configuration constants, upload
 * validation, the upload path naming rule and the 24-hour retention sweep.
 * The filesystem is a map from path to modification time.
 */
module Storage {
  import opened Paths

  /** A point in time, in microseconds (the resolution of Python's `datetime`). */
  type Time = int

  /** The files on disk, each with its modification time. */
  type Files = map<Path, Time>

  const UPLOAD_DIR: Path := "uploads"
  const TEMP_DIR: Path := "temp"
  const MAX_FILE_SIZE: nat := 50 * 1024 * 1024
  const ALLOWED_EXTENSIONS: set<string> := {".wav", ".mp3", ".ogg", ".flac", ".m4a"}

  /** `timedelta(hours=24)` in microseconds. */
  const RETENTION: int := 24 * 60 * 60 * 1000000

  /** `validate_audio_file`: the lower-cased last suffix is an allowed extension. */
  predicate ValidateAudioFile(filename: string) {
    Lower(Suffix(filename)) in ALLOWED_EXTENSIONS
  }

  /** `name` ends, ignoring ASCII case, with `ext`, and something precedes it. */
  predicate EndsWithExtension(name: string, ext: string) {
    |ext| < |name| && Lower(name[|name| - |ext|..]) == ext
  }

  /**
   * A file name is accepted exactly when its final component ends,
   * ignoring case, with one of the allowed extensions and is longer than it:
   * `x.WAV` and `a/b.flac` pass, `.wav` (a hidden file with no suffix) and
   * `x.wav.` (a trailing dot) do not.
   */
  lemma {:induction false} ValidateIffEndsWithAllowed(filename: string)
    ensures ValidateAudioFile(filename) <==>
            exists e :: e in ALLOWED_EXTENSIONS && EndsWithExtension(Name(filename), e)
  {
    if ValidateAudioFile(filename) {
      var e := Lower(Suffix(filename));
      ValidSuffixIsEnding(filename);
      assert e in ALLOWED_EXTENSIONS && EndsWithExtension(Name(filename), e);
    }
    if e :| e in ALLOWED_EXTENSIONS && EndsWithExtension(Name(filename), e) {
      EndingIsValid(filename, e);
    }
  }

  /** A name ending with an allowed extension has exactly that extension as its suffix. */
  lemma EndingIsValid(filename: string, e: string)
    requires e in ALLOWED_EXTENSIONS && EndsWithExtension(Name(filename), e)
    ensures Lower(Suffix(filename)) == e
  {
    var n := Name(filename);
    AllowedShape(e);
    EndingIsSuffix(n, e);
    assert Suffix(filename) == n[|n| - |e|..];
  }

  /** An accepted suffix is an allowed extension the name ends with. */
  lemma ValidSuffixIsEnding(filename: string)
    requires ValidateAudioFile(filename)
    ensures EndsWithExtension(Name(filename), Lower(Suffix(filename)))
  {
    var n := Name(filename);
    var i := RFind(n, '.');
    var x := Suffix(filename);
    if x == "" {
      NoSuffixRejected(filename);
    }
    assert 0 < i < |n| - 1 && x == n[i..];
    assert |Lower(x)| == |n| - i;
  }

  /** The shape every allowed extension has: one leading dot and no other. */
  lemma AllowedShape(e: string)
    requires e in ALLOWED_EXTENSIONS
    ensures |e| >= 2 && e[0] == '.'
    ensures forall k :: 0 < k < |e| ==> e[k] != '.'
  {
  }

  /** If a name ends with an allowed extension, that ending is its last dot onwards. */
  lemma EndingIsSuffix(n: string, e: string)
    requires e in ALLOWED_EXTENSIONS && EndsWithExtension(n, e)
    ensures RFind(n, '.') == |n| - |e|
  {
    var j := |n| - |e|;
    var t := n[j..];
    AllowedShape(e);
    assert LowerChar(t[0]) == e[0];
    LowerDot(t[0]);
    forall k | j < k < |n|
      ensures n[k] != '.'
    {
      assert LowerChar(t[k - j]) == e[k - j];
      LowerDot(t[k - j]);
    }
    RFindIsLast(n, '.', j);
  }

  /** The suffix of `stem + ext` is `ext` when the stem is a plain, dot-free name. */
  lemma SuffixOfPlain(stem: string, ext: string)
    requires stem != "" && '/' !in stem && '.' !in stem
    requires |ext| >= 2 && ext[0] == '.' && '/' !in ext && '.' !in ext[1..]
    ensures Suffix(stem + ext) == ext
  {
    var n := stem + ext;
    assert '/' !in n;
    forall k | |stem| < k < |n|
      ensures n[k] != '.'
    {
      assert n[k] == ext[1..][k - |stem| - 1];
    }
    RFindIsLast(n, '.', |stem|);
    assert n[|stem|..] == ext;
  }

  /** A plain stem followed by a well-formed extension is judged by that extension alone. */
  lemma PlainNameValid(stem: string, ext: string)
    requires stem != "" && '/' !in stem && '.' !in stem
    requires |ext| >= 2 && ext[0] == '.' && '/' !in ext && '.' !in ext[1..]
    ensures ValidateAudioFile(stem + ext) <==> Lower(ext) in ALLOWED_EXTENSIONS
  {
    SuffixOfPlain(stem, ext);
  }

  /** `x.WAV` is accepted: the comparison ignores case. */
  lemma AcceptsUpperCase(stem: string)
    requires stem != "" && '/' !in stem && '.' !in stem
    ensures ValidateAudioFile(stem + ".WAV")
  {
    assert Lower(".WAV") == ".wav" by {
      var l := Lower(".WAV");
      assert l[0] == '.' && l[1] == 'w' && l[2] == 'a' && l[3] == 'v';
    }
    PlainNameValid(stem, ".WAV");
  }

  /** `x.txt` is rejected: its suffix is not an audio extension. */
  lemma RejectsOtherExtension(stem: string)
    requires stem != "" && '/' !in stem && '.' !in stem
    ensures !ValidateAudioFile(stem + ".txt")
  {
    var e := Lower(".txt");
    assert e == ".txt" by {
      assert e[0] == '.' && e[1] == 't' && e[2] == 'x' && e[3] == 't';
    }
    assert e !in ALLOWED_EXTENSIONS;
    PlainNameValid(stem, ".txt");
  }

  /** A name without a suffix is never accepted. */
  lemma NoSuffixRejected(filename: string)
    requires Suffix(filename) == ""
    ensures !ValidateAudioFile(filename)
  {
    assert Lower("") == "";
  }

  /** A hidden file such as `.wav`, whose only dot leads the name, has no suffix and is rejected. */
  lemma RejectsHiddenName(filename: string)
    requires var n := Name(filename); |n| > 0 && n[0] == '.' && '.' !in n[1..]
    ensures !ValidateAudioFile(filename)
  {
    var n := Name(filename);
    forall k | 0 < k < |n|
      ensures n[k] != '.'
    {
      assert n[1..][k - 1] == n[k];
    }
    RFindIsLast(n, '.', 0);
    NoSuffixRejected(filename);
  }

  /** A name ending in a dot, such as `x.wav.`, has no suffix and is rejected. */
  lemma RejectsTrailingDot(filename: string)
    requires var n := Name(filename); |n| > 0 && n[|n| - 1] == '.'
    ensures !ValidateAudioFile(filename)
  {
    var n := Name(filename);
    RFindIsLast(n, '.', |n| - 1);
    NoSuffixRejected(filename);
  }

  /** `UPLOAD_DIR / f"{id}{suffix}"`: the suffix keeps the case the client sent. */
  function UploadPath(id: string, suffix: string): (p: Path)
    ensures id != "" && '/' !in id && '/' !in suffix ==> InDir(p, UPLOAD_DIR)
  {
    Join(UPLOAD_DIR, id + suffix)
  }

  /** `p` is a direct child of directory `dir` (what `dir.glob("*")` lists). */
  predicate InDir(p: Path, dir: Path) {
    |p| > |dir| + 1 && p[..|dir| + 1] == dir + "/" && '/' !in p[|dir| + 1..]
  }

  /** A file joined onto a directory is one of that directory's direct children. */
  lemma JoinIsInDir(dir: Path, name: string)
    requires name != "" && '/' !in name
    ensures InDir(Join(dir, name), dir)
  {
    var p := Join(dir, name);
    assert p[..|dir| + 1] == dir + "/";
    assert p[|dir| + 1..] == name;
  }

  /** The directories the retention sweep scans. */
  predicate Managed(p: Path) {
    InDir(p, UPLOAD_DIR) || InDir(p, TEMP_DIR)
  }

  /** A file is expired when its age is strictly greater than 24 hours. */
  predicate Expired(mtime: Time, now: Time) {
    now - mtime > RETENTION
  }

  /** The sweep deletes `p` at time `now`. */
  predicate Doomed(files: Files, p: Path, now: Time)
    requires p in files
  {
    Managed(p) && Expired(files[p], now)
  }

  /** Reference definition of the files that survive a sweep at `now`. */
  function Swept(files: Files, now: Time): (kept: Files)
    ensures kept.Keys <= files.Keys
  {
    map p | p in files && !Doomed(files, p, now) :: files[p]
  }

  /**
   * `cleanup_old_files`: visits every file and unlinks the managed ones
   * whose age exceeds 24 hours; every other file keeps its place and time.
   */
  method CleanupOldFiles(files: Files, now: Time) returns (kept: Files)
    ensures forall p :: p in files ==> (p !in kept <==> Doomed(files, p, now))
    ensures forall p :: p in kept ==> p in files && kept[p] == files[p]
    ensures kept == Swept(files, now)
  {
    kept := files;
    var todo := files.Keys;
    while todo != {}
      invariant todo <= files.Keys
      invariant forall p :: p in kept ==> p in files && kept[p] == files[p]
      invariant forall p :: p in todo ==> p in kept
      invariant forall p :: p in files && p !in todo ==> (p !in kept <==> Doomed(files, p, now))
      decreases todo
    {
      var p :| p in todo;
      if Managed(p) && Expired(kept[p], now) {
        kept := kept - {p};
      }
      todo := todo - {p};
    }
  }

  /** A second sweep at the same instant deletes nothing more. */
  lemma SweepIsIdempotent(files: Files, now: Time)
    ensures Swept(Swept(files, now), now) == Swept(files, now)
  {
  }

  /** A file exactly 24 hours old survives; one microsecond older does not. */
  lemma SweepBoundary(p: Path, t: Time)
    requires InDir(p, TEMP_DIR)
    ensures p in Swept(map[p := t], t + RETENTION)
    ensures p !in Swept(map[p := t], t + RETENTION + 1)
  {
  }
}

=== FILE: wrappers.dfy ===
/** Optional values and results, shared by every module of the model. */
module Wrappers {

  /** An optional value: Python's `None` or a present value. */
  datatype Option<+T> = None | Some(value: T)

  /** Either a value or the error an endpoint raises instead. */
  datatype Result<+T, +E> = Ok(value: T) | Err(error: E)
}
